=== FILE: README.md ===
# argr in Dafny

A model of the core of **argr**, a small command-line argument parser written
in JavaScript. The model covers three parts:

- **Vector** (`lib/vector.js`) projects a raw value through an optional
  signature, a list of labels, into a labelled object.
- **Param** (`lib/param.js`) is one parsed occurrence of an option. It has a
  memoised `value()`.
- **Argr** (`lib/argr.js`) is the parser and option registry:
  - `init` slices the token list;
  - `option` registers definitions under every alias, or looks one up;
  - `_parse` scans the tokens (combined short flags, `-x`/`--long`,
    `name=value`, signature lookahead, greedy value consumption);
  - `_setArg` records each occurrence under every alias of its definition;
  - `get` parses at most once per `init` and resolves a name through the
    parsed occurrence, then the definition's default, then `false`.

Files:

- `wrappers.dfy`: `Option`.
- `strings.dfy`: the alphanumeric class of the token patterns, `indexOf`, and
  `split`/`join` on one character, with both round trips.
- `vector.dfy`: the JavaScript values the parser handles, their truthiness, and
  `Vector`.
- `param.dfy`: definitions, occurrences, and the memoised `value()`.
- `argr.dfy`: token shapes, the scan, `_setArg`, the instance state, `init`,
  the constructor, `option` and `get`. It also holds the general properties:
  - what each token shape yields;
  - last write wins;
  - how `get` resolves a name;
  - `get` parses once, and a later `get` answers as the first would;
  - `init` forgets registered options;
  - alias symmetry for coherent registries.
- `examples_argr.dfy`: the scenarios of the repository's test suite, stated
  as lemmas about the model. Each scenario is proved in small steps. The
  `get` answers go through the general properties (`GetResolves`,
  `LastTouchIs`, the `Discover…` lemmas). Single tokens, single scan steps and
  registrations are settled by unfolding the definitions.

How the model is built:

- The mutable instance is a value, `Argr.Instance`, holding:
  - the definitions map;
  - the token list;
  - the parse cache.
- Every method becomes a pure function. A method that changes the instance
  returns the new instance.
- JavaScript's dynamic features are made explicit:
  - the number of arguments passed to `option` is a variant of `OptionCall`;
  - `Array.isArray` is a variant of `Value` or `Names`;
  - truthiness is the predicate `Vectors.Truthy`.
- The signature branch mutates the token array with `splice`. The model
  instead resumes the scan after the consumed tokens. Both give the same
  result, because the mutated array is only ever parsed once: `init`
  replaces it before the next parse.

## Model

| member | source | states |
|---|---|---|
| Strings.IndexOf | lib/argr.js:89-91 | the first position of the character. Every earlier position holds another character. "Not found" is reported as the length of the string |
| Strings.Split | lib/argr.js:28 | splitting on one character gives at least one piece, and no piece contains the separator |
| Strings.JoinSplit | lib/argr.js:28 | joining the pieces of a split with the separator gives back the original string |
| Strings.SplitJoin | lib/argr.js:28 | splitting a join of separator-free pieces gives back the pieces |
| Argr.Tokenize | lib/argr.js:28 | a string argument becomes the space-free pieces that join back into it. A token list is kept as given |
| Vectors.Label | lib/vector.js:11-14 | the labelled object's keys are exactly the signature's labels |
| Vectors.Vector | lib/vector.js:6-22 | when values and signature are both arrays, the result is an object whose key set is exactly the set of labels. Otherwise the values pass through unchanged |
| Vectors.LabelAtLastIndex | lib/vector.js:12-14 | each label holds the value at the last position where the label occurs in the signature, or undefined past the end of the values |
| Vectors.VectorPosition | lib/vector.js:12-14 | the label at position i maps to values[i], or to undefined when the values are shorter, unless the label occurs again later |
| Vectors.VectorDropsExtra | lib/vector.js:12-14 | values beyond the signature's length do not reach the labelled result |
| Vectors.VectorKeepsTruthy | lib/vector.js:10-21 | the vector of a value is truthy exactly when the value is |
| Params.NewParam | lib/param.js:8-43 | a new occurrence reports the name it was given and has a definition exactly when one was supplied. Its memo is consistent, and its expected value is the vector of a truthy raw value, else null |
| Params.ValueOf | lib/param.js:25-28 | `value()` keeps the name, raw value and definition. From a consistent memo it returns the expected value, and it leaves the memo set so that a later call does not recompute |
| Params.ValueOfMemoised | lib/param.js:26-27 | a second `value()` returns the same value and leaves the occurrence as the first call left it |
| Params.FreshValue | lib/param.js:25-28 | a new occurrence's value is null for a falsy raw value and the vector for a truthy one. Without a definition it is the raw value itself |
| Argr.StripDashesPrefix | lib/argr.js:86 | removing the dashes drops at most two leading characters, all of them dashes, and changes nothing in a token that does not start with a dash. The removal is greedy: unless two dashes went, what is left does not start with a dash |
| Argr.FlagBody | lib/argr.js:84-86 | a token of the single/long shape keeps a name beginning with an alphanumeric once its dashes are removed |
| Argr.GreedyEnd | lib/argr.js:99-109 | the greedy loop stops at the first token whose dash-stripped form is a registered alias, or at the end of the list. Every token before that point is unregistered |
| Argr.Discover | lib/argr.js:70-113 | one turn of the scan always advances, never past the end of the list, and never yields an empty name |
| Argr.DiscoverFlag | lib/argr.js:84-112 | a single/long flag yields an occurrence with a non-empty name, and the scan resumes after the tokens it consumed |
| Argr.FlagsOf | lib/argr.js:75-81 | a combined token yields one occurrence per character after the dash, in order, each with raw value true |
| Argr.DiscoverCombined | lib/argr.js:74-81 | a combined token yields one true flag per character after its first dash, including characters past the matched prefix, and consumes no following token |
| Argr.DiscoverIgnores | lib/argr.js:70-113 | a token matching neither pattern yields nothing, and the scan moves to the next token |
| Argr.DiscoverInline | lib/argr.js:89-91 | for `name=value`, the name is what precedes the first '=' and the raw value is the one-element list of the rest. No token is consumed, even when the name has a signature |
| Argr.DiscoverSignature | lib/argr.js:94-95 | a registered name with a signature of length N takes the next N tokens, or fewer at the end of the list, whatever their shape |
| Argr.DiscoverGreedy | lib/argr.js:98-110 | otherwise the flag takes the following unregistered tokens up to the next registered alias. Its raw value is null when it took none |
| Argr.Occurrences | lib/argr.js:64-117 | the scan of a token list yields only named occurrences |
| Argr.SetArg | lib/argr.js:46-56 | one occurrence object lands in every alias slot of a registered name's definition, or only in the unregistered name's own slot. Every other slot keeps its content |
| Argr.LastTouch | lib/argr.js:46-56 | the last occurrence writing a slot writes it, and no later one does. When there is none, no occurrence writes it |
| Argr.LastTouchIs | lib/argr.js:46-56 | conversely, an occurrence that writes a slot with no later writer is the last writer |
| Argr.LastTouchNone | lib/argr.js:46-56 | a slot no occurrence writes has no last writer |
| Argr.LastWins | lib/argr.js:46-56 | after recording a sequence of occurrences, each slot holds the occurrence object built from its last writer. A slot nobody wrote is unchanged |
| Argr.Init | lib/argr.js:27-37 | `init` empties the definitions and the parse cache. It keeps the tokens from index 2, or from index 1 when `usedScript` is false, and nothing when there are fewer tokens |
| Argr.Create | lib/argr.js:119-122 | the constructor starts empty. It runs `init` only for a truthy first argument: a missing argument or the empty string leaves the token list empty |
| Argr.CallOption | lib/argr.js:140-167 | with one argument, a read-only lookup that finds the definition exactly when the name is registered. Otherwise every alias maps to one new definition with those aliases and description, whose value is false after two arguments and the vector of the default otherwise. Other registered names, the tokens and the cache are untouched |
| Argr.Get | lib/argr.js:175-184 | `get` keeps the definitions and tokens and leaves the cache holding the parse: the cached one if there was one, else a fresh parse of the tokens with the definitions registered now. Once the cache is filled, `get` changes nothing |
| Argr.GetResolves | lib/argr.js:175-184 | after `init`, `get` gives the value of the last occurrence written into the slot. Otherwise it gives the definition's value, and false for an unknown name |
| Argr.GetParsesOnce | lib/argr.js:176-177 | parsing happens once per `init`: a second `get` changes nothing, and options registered after the first `get` do not change the parse result |
| Argr.GetAfterGet | lib/argr.js:176-180 | a `get` that follows another `get` with no `option` call in between gives the answer it would have given as the first `get`, because it reads the parse the first one cached. `Argr.GetAfterOption` covers an `option` call in between |
| Argr.GetAfterOption | lib/argr.js:176-183 | after the first `get` and a registering `option` call, a name some token wrote still gets the first parse's answer, even if the new option would have stopped that token's scan. A name no token wrote falls back to the registry as it is now: the new definition's value, or false |
| Argr.InitForgetsOptions | lib/argr.js:31-34 | options registered before `init` are no longer found after it |
| Argr.FlagValues | lib/argr.js:80-85 | a combined flag's value is true. A single flag with nothing to take has raw value null, and so has value null |
| Argr.AddKeepsCoherent | lib/argr.js:161-164 | pointing aliases at one definition that lists exactly them keeps every key among its definition's aliases and every alias list pointing at one definition, provided no definition left in place shares an alias with the new list |
| Argr.RegisterKeepsCoherent | lib/argr.js:161-164 | an `option` call keeps the registry keyed and coherent unless its alias list takes over only part of an earlier one. Fresh aliases and a repeated registration of a whole alias list both qualify |
| Argr.TouchesAliasesAlike | lib/argr.js:47-51 | in a coherent registry, an occurrence writes one alias of a definition exactly when it writes another |
| Argr.LastTouchAlike | lib/argr.js:46-56 | slots written by the same occurrences have the same last writer |
| Argr.AliasSymmetry | lib/argr.js:47-51 | in a coherent registry, every alias of a definition gives the same answer to `get` |
| Argr.AliasSymmetryLater | lib/argr.js:47-51 | alias symmetry also holds for a `get` that directly follows the first one, with no `option` call in between |
| ArgrExamples.VectorExamples | tests/spec/vector.spec.js:7-28 | labelling `['New York', '469 sqmi']` with `['city', 'area']` gives both fields, and `'foo'` without a signature is `'foo'` |
| ArgrExamples.OptionGetter | tests/spec/argr.spec.js:69-95 | a registered option is found again with its default value and description. An unregistered one is not found |
| ArgrExamples.ScenarioInit | tests/spec/argr.spec.js:232 | `init` keeps the tokens after the interpreter and the script |
| ArgrExamples.ScenarioRegisterA | tests/spec/argr.spec.js:235 | registering a/option_a on an empty registry points both aliases at one definition |
| ArgrExamples.ScenarioRegisterB | tests/spec/argr.spec.js:236 | registering b/option_b adds both aliases and keeps a/option_a |
| ArgrExamples.ScenarioRegisterG | tests/spec/argr.spec.js:239 | registering g/geocoord with signature lat, lng adds both aliases |
| ArgrExamples.ScenarioRegisterS | tests/spec/argr.spec.js:242 | registering s/jam with signature butter completes the scenario's registry |
| ArgrExamples.ScenarioOccurrences | tests/spec/argr.spec.js:226-259 | the scan skips the non-flag tokens. `-abc` gives three flags, `-g` takes `-50.2` and `232` although the first looks like a flag, and `-s=abc-def` carries its value inline |
| ArgrExamples.ScenarioGetA | tests/spec/argr.spec.js:245 | `get('a')` is true |
| ArgrExamples.ScenarioGetB | tests/spec/argr.spec.js:246 | `get('b')` is true |
| ArgrExamples.ScenarioGetC | tests/spec/argr.spec.js:249 | `get('c')` is true although `c` is not registered |
| ArgrExamples.ScenarioGetG | tests/spec/argr.spec.js:252-253 | `get('g')` labels the two tokens after `-g` as lat and lng |
| ArgrExamples.ScenarioGetS | tests/spec/argr.spec.js:256 | `get('s')` labels the inline value `abc-def` as butter |
| ArgrExamples.ScenarioLaterGet | tests/spec/argr.spec.js:245-252 | `get('g')` after `get('a')` reads the cached parse and still gives the labelled coordinates |
| ArgrExamples.OpenSetup | tests/spec/argr.spec.js:301-302 | `init` keeps the tokens after `node hello`, and the `option` call registers o/open with one definition and default `'myfile.dat'` |
| ArgrExamples.LastOccurrenceWins | tests/spec/argr.spec.js:296-307 | after `-o first.1 --open second.2`, `get('o')` is the later occurrence's list `['second.2']` |
| ArgrExamples.DefaultsAndTrailingFlag | tests/spec/argr.spec.js:144-159 | `get('o')` falls back to the default, and `get('p')` of an unknown name is false. The trailing `-k` has value null |
| ArgrExamples.TrailingSetup | tests/spec/argr.spec.js:149-150 | `init` keeps only `-k`, and the `option` call registers o/open with default `'myfile.m'` |
| ArgrExamples.ComboInit | tests/spec/argr.spec.js:166 | `init` keeps the tokens after the interpreter and the script |
| ArgrExamples.ComboRegisterF | tests/spec/argr.spec.js:168 | registering f/foo on an empty registry points both aliases at one definition |
| ArgrExamples.ComboRegisterQ | tests/spec/argr.spec.js:169 | registering the single name q adds one key |
| ArgrExamples.ComboRegisterK | tests/spec/argr.spec.js:170 | registering K/kolor adds both aliases |
| ArgrExamples.ComboRegisterAbout | tests/spec/argr.spec.js:171 | registering a/About adds both aliases |
| ArgrExamples.ComboRegisterU | tests/spec/argr.spec.js:172 | registering u/wasNotProvided completes the scenario's registry |
| ArgrExamples.ReRegisterStaysCoherent | lib/argr.js:161-164 | registering o/open a second time replaces the whole alias list, and the registry stays keyed and coherent |
| ArgrExamples.ComboOccurrences | tests/spec/argr.spec.js:161-192 | `-fbqKx` gives five true flags and does not take `ignore`. The trailing `-a` takes nothing |
| ArgrExamples.ComboProvided | tests/spec/argr.spec.js:175-176 | `get('f')` and `get('foo')` are true |
| ArgrExamples.ComboShortOnly | tests/spec/argr.spec.js:179 | `get('q')` is true |
| ArgrExamples.ComboUnregistered | tests/spec/argr.spec.js:182 | `get('b')` is true although `b` is not registered |
| ArgrExamples.ComboNotProvided | tests/spec/argr.spec.js:185-186 | `get('u')` and `get('wasNotProvided')` are false |
| ArgrExamples.ComboTrailingIsNull | tests/spec/argr.spec.js:189 | `get('a')` for the trailing `-a` is null, where the test expects true |
| ArgrExamples.OverlapRegisterBY | lib/argr.js:161-164 | `option(['b', 'y'], '')` on an empty registry points b and y at one definition |
| ArgrExamples.OverlapRegisterAB | lib/argr.js:161-164 | a following `option(['a', 'b'], '')` takes b over and leaves y pointing at the older definition |
| ArgrExamples.OverlappingAliasesDiverge | lib/argr.js:161-164 | re-registering one alias of an older definition leaves two aliases of the newer definition with different values. Alias symmetry therefore needs a coherent registry |

## Where the code and its documentation disagree

The model follows `lib/argr.js`, `lib/param.js` and `lib/vector.js`. Where the
tests and doc comments promise something else, the code decides:

- A single flag with nothing to take after it has raw value `null`, so `get`
  returns `null` (lib/argr.js:85, lib/param.js:26). The test at
  tests/spec/argr.spec.js:189 expects
  `true`. `ArgrExamples.ComboTrailingIsNull` and `Argr.FlagValues` state
  what the code does.
- Only a signature makes a flag take a fixed number of tokens. A default value
  never drives any lookahead.
- `init` does not capture a command token. It keeps the tokens from index 2,
  or from index 1 when `usedScript` is false.
- There is no strict mode, `command()`, `options()` or `usedScript()` method,
  although tests call them.
- `?` matches neither token pattern, so the `?` flag tests
  (tests/spec/argr.spec.js:194-224) do not describe this code.
- The doc comment of `option` (lib/argr.js:136) says that a missing
  default means `true`. With only two arguments, the definition's `value()`
  returns `false` (lib/argr.js:152), and `Argr.DefaultValue` follows that.
- The doc comment of `value()` (lib/param.js:21) says that without a
  signature it "creates an object with length". It returns the raw value
  unchanged (lib/vector.js:17-18), and `Params.FreshValue` states that.
- The tests compare values with loose `==`. The model keeps the real array
  value, so `get('o')` in `ArgrExamples.LastOccurrenceWins` is the
  one-element list, not the string.

## Left out

- Strict mode, `command()`, `options()` and the `usedScript()` method: they
  are not part of `lib/argr.js`.
- `option` called with no arguments at all: the source's argument count is
  then 0, not 1, so it registers a definition under the key `"undefined"`.
  `OptionCall` has no variant for this call, because names are strings in the
  model.
- `option` called with one array argument: the source then looks up the key
  the array converts to, its elements joined by commas (`"p,longParam"`).
  `Lookup` takes a single string name, so the model cannot express this call.
- The memo inside a definition's own `value()` (lib/argr.js:154) is not
  modelled. `Argr.DefaultValue` recomputes the vector, which gives the same
  value because `Vector` is a pure function of its arguments.
- `Argr.Get`: the memo that `value()` writes into the returned occurrence is
  not threaded back into the parse cache. Every call of `Params.ValueOf` from
  a fresh occurrence gives the value a memoised call would
  (`Params.ValueOfMemoised`), so `get`'s answers are unaffected.
- `Argr.Create`, `Argr.Init`: `usedScript` is modelled as absent, `true` or
  `false` (`Argr.FirstArg`). Other
  falsy values (`0`, `''`, `null`) select index 1 in the source, and the model
  does not represent them.
- Names that collide with properties of JavaScript's `Object.prototype`
  (`constructor`, `toString`, …) are not modelled. In the source, `_definition`
  and the parse result are plain objects, so such names would find inherited
  members.
- `Argr.AliasSymmetry` holds only for registries in which no later `option`
  call took over part of an earlier alias list. `ArgrExamples.OverlappingAliasesDiverge`
  shows that the general statement fails.
- Values are limited to what the parser produces: tokens and string lists,
  booleans, `null`, `undefined`, and labelled objects. A default of any other
  JavaScript type (a number, say) is not modelled.
- `Argr.FlagsOf`: a Dafny string is a sequence of Unicode scalar values,
  while `split('')` in the source splits UTF-16 code units. A combined token
  holding a character outside the Basic Multilingual Plane gives two
  occurrences in the source, one per surrogate, and one in the model.
- `Vectors.Label`: the labelled object is a map, so the insertion order of
  its keys, which JavaScript keeps, is not modelled.
- Module loading, reading `process.argv`, and the description string beyond
  storing it are not modelled.

=== FILE: argr.dfy ===
/** The parser and option registry: `init`, `option`, `get`, and the token
    scan behind them. */
module Argr {
  import opened Wrappers
  import opened Strings
  import opened Vectors
  import opened Params

  /** Option definitions keyed by alias. */
  type Registry = map<string, Definition>

  // ---------------------------------------------------------------------------
  // Token shapes
  // ---------------------------------------------------------------------------

  /** `/^-[0-9a-zA-Z]{2,}/`: a dash and at least two alphanumerics; whatever
      follows them is not examined. */
  predicate IsCombined(t: string) {
    |t| >= 3 && t[0] == '-' && IsAlnum(t[1]) && IsAlnum(t[2])
  }

  /** `/^-(-)?[0-9a-zA-Z]/`: one or two dashes, then an alphanumeric. */
  predicate IsFlag(t: string) {
    |t| >= 2 && t[0] == '-' && (IsAlnum(t[1]) || (|t| >= 3 && t[1] == '-' && IsAlnum(t[2])))
  }

  /** The shape handled by the single/long branch: a flag that is not combined. */
  predicate IsSingle(t: string) {
    !IsCombined(t) && IsFlag(t)
  }

  /** `t.replace(/^-(-)?/, '')`: up to two leading dashes removed. */
  function StripDashes(t: string): string {
    if |t| >= 2 && t[0] == '-' && t[1] == '-' then t[2..]
    else if |t| >= 1 && t[0] == '-' then t[1..]
    else t
  }

  /** What `StripDashes` removes: a prefix of at most two characters, all of
      them dashes, and nothing from a token that does not start with one.
      The removal is greedy: unless two dashes went, what is left does not
      start with a dash. */
  lemma StripDashesPrefix(t: string)
    ensures var r := StripDashes(t);
            && |t| - 2 <= |r| <= |t| && r == t[|t| - |r|..]
            && (forall j :: 0 <= j < |t| - |r| ==> t[j] == '-')
            && (|t| > 0 && t[0] != '-' ==> r == t)
            && (|t| - |r| == 2 || r == "" || r[0] != '-')
  {
  }

  /** Whether `name` is registered with a signature (an array fourth argument). */
  predicate HasSignature(defs: Registry, name: string) {
    name in defs && defs[name].signature.Some?
  }

  function Min(a: int, b: int): int {
    if a <= b then a else b
  }

  // ---------------------------------------------------------------------------
  // Discovery: which occurrences one token yields, and where the scan resumes
  // ---------------------------------------------------------------------------

  /** A name found in the token list, with its raw value. */
  datatype Occurrence = Occurrence(name: string, raw: Value)

  /** The greedy value loop: from index `k`, the first token whose
      dash-stripped form is a registered alias (or the end of the list). */
  function GreedyEnd(args: seq<string>, defs: Registry, k: nat): (j: nat)
    requires k <= |args|
    ensures k <= j <= |args|
    ensures forall m :: k <= m < j ==> StripDashes(args[m]) !in defs
    ensures j < |args| ==> StripDashes(args[j]) in defs
    decreases |args| - k
  {
    if k < |args| && StripDashes(args[k]) !in defs then GreedyEnd(args, defs, k + 1) else k
  }

  /** One turn of the scan loop at index `i`: the occurrences token `i`
      yields and the index of the next token the loop looks at. Tokens taken
      as values (by a signature or by the greedy loop) are skipped, which is
      what the source's `splice` and its `i = k` amount to. What each shape
      of token yields is stated by the `Discover…` lemmas below. */
  function Discover(args: seq<string>, defs: Registry, i: nat): (r: (seq<Occurrence>, nat))
    requires i < |args|
    ensures i < r.1 <= |args|
    ensures forall j :: 0 <= j < |r.0| ==> r.0[j].name != ""
  {
    var t := args[i];
    if IsCombined(t) then
      (FlagsOf(t[1..]), i + 1)
    else if IsFlag(t) then
      var (o, next) := DiscoverFlag(args, defs, i);
      ([o], next)
    else
      ([], i + 1)
  }

  /** The single/long branch: the occurrence a flag-shaped token names and
      the index where the scan resumes. */
  function DiscoverFlag(args: seq<string>, defs: Registry, i: nat): (r: (Occurrence, int))
    requires i < |args| && IsFlag(args[i])
    ensures i < r.1 <= |args|
    ensures r.0.name != ""
  {
    var body := StripDashes(args[i]);
    FlagBody(args[i]);
    var k := IndexOf(body, '=');
    if k < |body| then
      (Occurrence(body[..k], List([body[k + 1..]])), i + 1)
    else if HasSignature(defs, body) then
      var end := Min(i + 1 + |defs[body].signature.value|, |args|);
      (Occurrence(body, List(args[i + 1..end])), end)
    else
      var end := GreedyEnd(args, defs, i + 1);
      (Occurrence(body, if end == i + 1 then Null else List(args[i + 1..end])), end)
  }

  /** The flags a run of characters stands for, one per character, each set
      to true. */
  function FlagsOf(cs: string): (os: seq<Occurrence>)
    ensures |os| == |cs|
    ensures forall j :: 0 <= j < |cs| ==> os[j] == Occurrence([cs[j]], Bool(true))
  {
    if |cs| == 0 then [] else [Occurrence([cs[0]], Bool(true))] + FlagsOf(cs[1..])
  }

  /** A flag-shaped token keeps at least one character, an alphanumeric
      first, once its dashes are stripped. */
  lemma FlagBody(t: string)
    requires IsFlag(t)
    ensures |StripDashes(t)| > 0 && IsAlnum(StripDashes(t)[0])
  {
    if IsAlnum(t[1]) {
      assert StripDashes(t) == t[1..];
    } else {
      assert StripDashes(t) == t[2..];
    }
  }

  /** A combined token: every character after the first dash is a flag set
      to true, and the scan moves to the next token. */
  lemma DiscoverCombined(args: seq<string>, defs: Registry, i: nat)
    requires i < |args| && IsCombined(args[i])
    ensures var r := Discover(args, defs, i);
            && r.1 == i + 1
            && |r.0| == |args[i]| - 1
            && forall j :: 0 <= j < |r.0| ==> r.0[j] == Occurrence([args[i][j + 1]], Bool(true))
  {
  }

  /** A token of neither shape yields nothing. */
  lemma DiscoverIgnores(args: seq<string>, defs: Registry, i: nat)
    requires i < |args| && !IsCombined(args[i]) && !IsFlag(args[i])
    ensures Discover(args, defs, i) == ([], i + 1)
  {
  }

  /** `name=value`: one occurrence named by what precedes the first '=',
      holding the rest as a one-element list; no further token is taken. */
  lemma DiscoverInline(args: seq<string>, defs: Registry, i: nat)
    requires i < |args| && IsSingle(args[i]) && '=' in StripDashes(args[i])
    ensures var r := Discover(args, defs, i);
            && r.1 == i + 1
            && |r.0| == 1
            && '=' !in r.0[0].name
            && r.0[0].raw.List? && |r.0[0].raw.items| == 1
            && StripDashes(args[i]) == r.0[0].name + "=" + r.0[0].raw.items[0]
  {
    var body := StripDashes(args[i]);
    var k := IndexOf(body, '=');
    assert body[..k] + "=" + body[k + 1..] == body;
  }

  /** A signature of length N takes the next N tokens (fewer at the end of
      the list) whatever their shape. */
  lemma DiscoverSignature(args: seq<string>, defs: Registry, i: nat)
    requires i < |args| && IsSingle(args[i]) && '=' !in StripDashes(args[i])
    requires HasSignature(defs, StripDashes(args[i]))
    ensures var r := Discover(args, defs, i);
            var name := StripDashes(args[i]);
            && r.1 == Min(i + 1 + |defs[name].signature.value|, |args|)
            && r.0 == [Occurrence(name, List(args[i + 1..r.1]))]
  {
    assert IndexOf(StripDashes(args[i]), '=') == |StripDashes(args[i])|;
  }

  /** Without a signature every following token up to the next registered
      alias is a value; when there is none the raw value is `null`. */
  lemma DiscoverGreedy(args: seq<string>, defs: Registry, i: nat)
    requires i < |args| && IsSingle(args[i]) && '=' !in StripDashes(args[i])
    requires !HasSignature(defs, StripDashes(args[i]))
    ensures var r := Discover(args, defs, i);
            && |r.0| == 1
            && r.0[0].name == StripDashes(args[i])
            && (r.1 == i + 1 ==> r.0[0].raw == Null)
            && (r.1 > i + 1 ==> r.0[0].raw == List(args[i + 1..r.1]))
            && (forall m :: i < m < r.1 ==> StripDashes(args[m]) !in defs)
            && (r.1 < |args| ==> StripDashes(args[r.1]) in defs)
  {
    assert IndexOf(StripDashes(args[i]), '=') == |StripDashes(args[i])|;
  }

  /** Every occurrence the scan finds from index `i` on, in token order;
      none has an empty name. */
  function Occurrences(args: seq<string>, defs: Registry, i: nat): (found: seq<Occurrence>)
    requires i <= |args|
    ensures forall j :: 0 <= j < |found| ==> found[j].name != ""
    decreases |args| - i
  {
    if i == |args| then []
    else
      var (found, next) := Discover(args, defs, i);
      found + Occurrences(args, defs, next)
  }

  // ---------------------------------------------------------------------------
  // Recording: `_setArg` and the parse result
  // ---------------------------------------------------------------------------

  /** Whether recording `o` writes slot `k`: every alias of the definition of
      a registered name, or only the name itself when it is unregistered. */
  predicate Touches(defs: Registry, o: Occurrence, k: string) {
    if o.name in defs then k in defs[o.name].aliases else k == o.name
  }

  /** The occurrence object `_setArg` creates for `o`. */
  function Stored(defs: Registry, o: Occurrence): Param {
    NewParam(o.name, o.raw, if o.name in defs then Some(defs[o.name]) else None)
  }

  /** The value `value()` gives for the occurrence recorded for `o`. */
  function OccurrenceValue(defs: Registry, o: Occurrence): Value {
    ValueOf(Stored(defs, o)).0
  }

  /** `_setArg`: one shared occurrence object lands in every slot `o`
      touches, overwriting what was there; every other slot is unchanged. */
  function SetArg(defs: Registry, data: map<string, Param>, o: Occurrence): (r: map<string, Param>)
    ensures forall k :: k in r <==> (k in data || Touches(defs, o, k))
    ensures forall k :: Touches(defs, o, k) ==> r[k] == Stored(defs, o)
    ensures forall k :: k in data && !Touches(defs, o, k) ==> r[k] == data[k]
  {
    var p := Stored(defs, o);
    if o.name in defs then data + map a | a in defs[o.name].aliases :: p
    else data[o.name := p]
  }

  /** Recording a sequence of occurrences in order. */
  function RecordAll(defs: Registry, data: map<string, Param>, found: seq<Occurrence>): map<string, Param>
    decreases |found|
  {
    if |found| == 0 then data
    else SetArg(defs, RecordAll(defs, data, found[..|found| - 1]), found[|found| - 1])
  }

  /** The index of the last occurrence in `found` that writes slot `k`. */
  function LastTouch(defs: Registry, found: seq<Occurrence>, k: string): (r: Option<nat>)
    ensures r.Some? ==> r.value < |found| && Touches(defs, found[r.value], k)
    ensures r.Some? ==> forall j :: r.value < j < |found| ==> !Touches(defs, found[j], k)
    ensures r.None? ==> forall j :: 0 <= j < |found| ==> !Touches(defs, found[j], k)
    decreases |found|
  {
    if |found| == 0 then None
    else if Touches(defs, found[|found| - 1], k) then Some(|found| - 1)
    else LastTouch(defs, found[..|found| - 1], k)
  }

  /** Conversely, an occurrence that writes slot `k` with no later one
      writing it is the last writer. */
  lemma {:induction false} LastTouchIs(defs: Registry, found: seq<Occurrence>, k: string, j: nat)
    requires j < |found| && Touches(defs, found[j], k)
    requires forall m :: j < m < |found| ==> !Touches(defs, found[m], k)
    ensures LastTouch(defs, found, k) == Some(j)
    decreases |found|
  {
    if j < |found| - 1 {
      var init := found[..|found| - 1];
      assert init[j] == found[j];
      assert forall m :: j < m < |init| ==> init[m] == found[m];
      LastTouchIs(defs, init, k, j);
    }
  }

  /** A slot no occurrence writes has no last writer. */
  lemma {:induction false} LastTouchNone(defs: Registry, found: seq<Occurrence>, k: string)
    requires forall m :: 0 <= m < |found| ==> !Touches(defs, found[m], k)
    ensures LastTouch(defs, found, k) == None
    decreases |found|
  {
    if |found| > 0 {
      var init := found[..|found| - 1];
      assert forall m :: 0 <= m < |init| ==> init[m] == found[m];
      LastTouchNone(defs, init, k);
    }
  }

  /** Last write wins: after recording, slot `k` holds the occurrence built
      from the last occurrence touching it, and is untouched if there is none. */
  lemma {:induction false} LastWins(defs: Registry, data: map<string, Param>, found: seq<Occurrence>, k: string)
    ensures LastTouch(defs, found, k).Some? ==>
              && k in RecordAll(defs, data, found)
              && RecordAll(defs, data, found)[k] == Stored(defs, found[LastTouch(defs, found, k).value])
    ensures LastTouch(defs, found, k).None? ==>
              && (k in RecordAll(defs, data, found) <==> k in data)
              && (k in data ==> RecordAll(defs, data, found)[k] == data[k])
    decreases |found|
  {
    if |found| > 0 {
      var n := |found| - 1;
      if !Touches(defs, found[n], k) {
        LastWins(defs, data, found[..n], k);
        var before := found[..n];
        if LastTouch(defs, before, k).Some? {
          assert before[LastTouch(defs, before, k).value] == found[LastTouch(defs, found, k).value];
        }
      }
    }
  }

  /** `_parse`: the occurrences of the whole token list recorded into an empty map. */
  function Parse(args: seq<string>, defs: Registry): map<string, Param> {
    RecordAll(defs, map[], Occurrences(args, defs, 0))
  }

  // ---------------------------------------------------------------------------
  // The instance: state, `init`, `option`, `get`
  // ---------------------------------------------------------------------------

  /** The parse cache `_data`: absent until the first `get` after `init`. */
  datatype Cache = Unparsed | Parsed(data: map<string, Param>)

  /** The instance state: `_definition`, `_args` and `_data`. */
  datatype Instance = Instance(definitions: Registry, args: seq<string>, cache: Cache)

  /** The state of an instance created without arguments. */
  const Empty: Instance := Instance(map[], [], Unparsed)

  /** What `init` accepts: one string to split on spaces, or a token list. */
  datatype Input = Line(text: string) | Tokens(items: seq<string>)

  function Tokenize(input: Input): (toks: seq<string>)
    ensures input.Line? ==> |toks| >= 1 && Join(toks, ' ') == input.text && forall j :: 0 <= j < |toks| ==> ' ' !in toks[j]
    ensures input.Tokens? ==> toks == input.items
  {
    match input
    case Line(text) => JoinSplit(text, ' '); Split(text, ' ')
    case Tokens(items) => items
  }

  /** The first kept token: 2 (skip the interpreter and the script) unless
      `usedScript` is explicitly false, then 1. */
  function FirstArg(usedScript: Option<bool>): nat {
    if usedScript == Some(false) then 1 else 2
  }

  /** `init(args, usedScript)`: the tokens from the first kept one on become
      the argument list; the registry and the parse cache are emptied. */
  function Init(s: Instance, input: Input, usedScript: Option<bool>): (r: Instance)
    ensures r.definitions == map[] && r.cache == Unparsed
    ensures var toks := Tokenize(input);
            var start := FirstArg(usedScript);
            && |r.args| == (if |toks| <= start then 0 else |toks| - start)
            && forall j :: 0 <= j < |r.args| ==> r.args[j] == toks[start + j]
  {
    var toks := Tokenize(input);
    var start := FirstArg(usedScript);
    Instance(map[], if start <= |toks| then toks[start..] else [], Unparsed)
  }

  /** `Argr(args, usedScript)`: `init` runs only when `args` is truthy. */
  function Create(input: Option<Input>, usedScript: Option<bool>): (r: Instance)
    ensures r.definitions == map[] && r.cache == Unparsed
    ensures input.None? || input == Some(Line("")) ==> r.args == []
    ensures input.Some? && input != Some(Line("")) ==>
              var toks := Tokenize(input.value);
              var start := FirstArg(usedScript);
              && |r.args| == (if |toks| <= start then 0 else |toks| - start)
              && forall j :: 0 <= j < |r.args| ==> r.args[j] == toks[start + j]
  {
    if input.None? || input == Some(Line("")) then Empty else Init(Empty, input.value, usedScript)
  }

  /** The first argument of `option`: one name, or an array of aliases. */
  datatype Names = One(name: string) | Many(list: seq<string>)

  /** `Array.isArray(param) ? param : [param]` */
  function Aliases(names: Names): seq<string> {
    match names
    case One(n) => [n]
    case Many(l) => l
  }

  /** A call of `option`, its arity made explicit. */
  datatype OptionCall =
    | Lookup(name: string)                                // option(name)
    | Define(names: Names, description: string)           // option(names, description)
    | DefineWith(names: Names, description: string,       // option(names, description, values[, signature]);
                 values: Value, signature: Value)         // an omitted signature is Undefined

  /** What `option` returns: the definition asked for, or the instance itself. */
  datatype OptionReply = Found(definition: Option<Definition>) | Chained(state: Instance)

  /** `Array.isArray(signature) ? signature : null` */
  function AsLabels(signature: Value): Option<seq<string>> {
    if signature.List? then Some(signature.items) else None
  }

  /** The definition object a registering call of `option` builds. */
  function NewDefinition(call: OptionCall): Definition
    requires !call.Lookup?
  {
    match call
    case Define(names, description) => Definition(Aliases(names), description, None, None)
    case DefineWith(names, description, values, signature) =>
      Definition(Aliases(names), description, Some(values), AsLabels(signature))
  }

  /** The definition's own `value()`: `false` when `option` had two arguments,
      otherwise the default projected through the signature. */
  function DefaultValue(d: Definition): Value {
    match d.default
    case None => Bool(false)
    case Some(values) => Vector(values, d.signature)
  }

  /** `option(...)`: with one argument a read-only lookup; otherwise every
      alias is pointed at one new definition and the instance is returned. */
  function CallOption(s: Instance, call: OptionCall): (r: OptionReply)
    ensures call.Lookup? ==> r.Found? && (r.definition.Some? <==> call.name in s.definitions)
    ensures call.Lookup? && r.definition.Some? ==> r.definition.value == s.definitions[call.name]
    ensures !call.Lookup? ==> r.Chained? && r.state.args == s.args && r.state.cache == s.cache
    ensures !call.Lookup? ==>
              r.state.definitions.Keys == s.definitions.Keys + (set a | a in Aliases(call.names))
    ensures !call.Lookup? ==> forall a :: a in Aliases(call.names) ==>
              && r.state.definitions[a].aliases == Aliases(call.names)
              && r.state.definitions[a].description == call.description
              && DefaultValue(r.state.definitions[a]) ==
                 (if call.Define? then Bool(false) else Vector(call.values, AsLabels(call.signature)))
              && r.state.definitions[a].signature ==
                 (if call.Define? then None else AsLabels(call.signature))
    ensures !call.Lookup? ==> forall k :: k in s.definitions && k !in Aliases(call.names) ==>
              r.state.definitions[k] == s.definitions[k]
  {
    match call
    case Lookup(name) => Found(if name in s.definitions then Some(s.definitions[name]) else None)
    case _ =>
      var d := NewDefinition(call);
      Chained(s.(definitions := s.definitions + map a | a in Aliases(call.names) :: d))
  }

  /** The parse result `get` works from: the cached one, or a fresh parse
      with the definitions registered now. */
  function DataOf(s: Instance): map<string, Param> {
    match s.cache
    case Parsed(data) => data
    case Unparsed => Parse(s.args, s.definitions)
  }

  /** `get(name)`: parse once, then the parsed occurrence's value, else the
      definition's value, else `false`. */
  function Get(s: Instance, name: string): (r: (Value, Instance))
    ensures r.1.definitions == s.definitions && r.1.args == s.args && r.1.cache == Parsed(DataOf(s))
    ensures s.cache.Parsed? ==> r.1 == s
  {
    var data := DataOf(s);
    var s' := s.(cache := Parsed(data));
    if name in data then (ValueOf(data[name]).0, s')
    else if name in s.definitions then (DefaultValue(s.definitions[name]), s')
    else (Bool(false), s')
  }

  // ---------------------------------------------------------------------------
  // Properties of `get`
  // ---------------------------------------------------------------------------

  /** After `init`, `get` resolves a name through the last occurrence that
      wrote its slot, then through its definition's default, then to `false`. */
  lemma GetResolves(s: Instance, name: string)
    requires s.cache == Unparsed
    ensures var found := Occurrences(s.args, s.definitions, 0);
            var last := LastTouch(s.definitions, found, name);
            && (last.Some? ==> Get(s, name).0 == OccurrenceValue(s.definitions, found[last.value]))
            && (last.None? && name in s.definitions ==> Get(s, name).0 == DefaultValue(s.definitions[name]))
            && (last.None? && name !in s.definitions ==> Get(s, name).0 == Bool(false))
  {
    var found := Occurrences(s.args, s.definitions, 0);
    LastWins(s.definitions, map[], found, name);
  }

  /** The token list is parsed at most once per `init`: a second `get` reuses
      the first one's result, even if options were registered in between. */
  lemma GetParsesOnce(s: Instance, a: string, b: string, call: OptionCall)
    requires !call.Lookup?
    ensures Get(Get(s, a).1, b).1 == Get(s, a).1
    ensures DataOf(CallOption(Get(s, a).1, call).state) == DataOf(Get(s, a).1)
  {
  }

  /** A later `get` answers as if it were the first: the cached parse is the
      one a fresh parse would give. */
  lemma GetAfterGet(s: Instance, a: string, b: string)
    ensures Get(Get(s, a).1, b).0 == Get(s, b).0
  {
  }

  /** Parsing once is observable: after the first `get`, a registering
      `option` call changes no answer that came from the token list, and a
      name no token wrote falls back to the registry as it is now. */
  lemma GetAfterOption(s: Instance, a: string, call: OptionCall, b: string)
    requires s.cache == Unparsed && !call.Lookup?
    ensures var later := CallOption(Get(s, a).1, call).state;
            var last := LastTouch(s.definitions, Occurrences(s.args, s.definitions, 0), b);
            && (last.Some? ==> Get(later, b).0 == Get(s, b).0)
            && (last.None? && b in later.definitions ==> Get(later, b).0 == DefaultValue(later.definitions[b]))
            && (last.None? && b !in later.definitions ==> Get(later, b).0 == Bool(false))
  {
    LastWins(s.definitions, map[], Occurrences(s.args, s.definitions, 0), b);
  }

  /** Alias symmetry holds for every `get` that follows the first one with no
      `option` call in between. */
  lemma AliasSymmetryLater(s: Instance, first: string, a: string, b: string)
    requires s.cache == Unparsed
    requires Keyed(s.definitions) && Coherent(s.definitions)
    requires a in s.definitions && b in s.definitions[a].aliases
    ensures Get(Get(s, first).1, a).0 == Get(Get(s, first).1, b).0
  {
    GetAfterGet(s, first, a);
    GetAfterGet(s, first, b);
    AliasSymmetry(s, a, b);
  }

  /** Options registered before `init` are forgotten by it. */
  lemma InitForgetsOptions(s: Instance, call: OptionCall, input: Input, usedScript: Option<bool>, name: string)
    requires !call.Lookup?
    ensures CallOption(Init(CallOption(s, call).state, input, usedScript), Lookup(name)) == Found(None)
  {
  }

  /** A flag yields `true` from a combined token; with nothing consumable after
      a single flag its raw value is `null`, and so is its value. */
  lemma FlagValues(defs: Registry, name: string)
    ensures OccurrenceValue(defs, Occurrence(name, Bool(true))) == Bool(true)
    ensures OccurrenceValue(defs, Occurrence(name, Null)) == Null
  {
  }

  // ---------------------------------------------------------------------------
  // Alias symmetry for a registry without partially overlapping alias lists
  // ---------------------------------------------------------------------------

  /** Every key is one of the aliases of the definition it maps to. */
  ghost predicate Keyed(defs: Registry) {
    forall k :: k in defs ==> k in defs[k].aliases
  }

  /** Every alias of a registered definition still maps to that definition,
      i.e. no later registration took over only part of an alias list. */
  ghost predicate Coherent(defs: Registry) {
    forall k, a :: k in defs && a in defs[k].aliases ==> a in defs && defs[a] == defs[k]
  }

  /** Pointing aliases at a definition listing exactly them keeps a registry
      keyed and coherent, provided every definition left in place shares no
      alias with the new one: the new alias list is fresh, or replaces whole
      alias lists. */
  lemma AddKeepsCoherent(defs: Registry, d: Definition)
    requires Keyed(defs) && Coherent(defs)
    requires forall k :: k in defs && k !in d.aliases ==> forall a :: a in defs[k].aliases ==> a !in d.aliases
    ensures var defs' := defs + map a | a in d.aliases :: d;
            Keyed(defs') && Coherent(defs')
  {
    var added := map a | a in d.aliases :: d;
    var defs' := defs + added;
    forall k | k in defs'
      ensures k in defs'[k].aliases
    {
      if k in added {
        assert defs'[k] == d;
      } else {
        assert defs'[k] == defs[k];
      }
    }
    forall k, a | k in defs' && a in defs'[k].aliases
      ensures a in defs' && defs'[a] == defs'[k]
    {
      if k in added {
        assert defs'[k] == d && a in added;
      } else {
        assert defs'[k] == defs[k];
        assert a in defs && defs[a] == defs[k];
        assert a !in added;
      }
    }
  }

  /** Registering keeps the registry keyed and coherent unless the new alias
      list takes over only part of an earlier one: fresh aliases, and a
      repeated registration of a whole alias list, are both fine. */
  lemma RegisterKeepsCoherent(s: Instance, call: OptionCall)
    requires !call.Lookup?
    requires Keyed(s.definitions) && Coherent(s.definitions)
    requires forall k :: k in s.definitions && k !in Aliases(call.names) ==>
               forall a :: a in s.definitions[k].aliases ==> a !in Aliases(call.names)
    ensures Keyed(CallOption(s, call).state.definitions) && Coherent(CallOption(s, call).state.definitions)
  {
    AddKeepsCoherent(s.definitions, NewDefinition(call));
  }

  /** Two aliases of one definition in a coherent registry are written by
      exactly the same occurrences. */
  lemma TouchesAliasesAlike(defs: Registry, o: Occurrence, a: string, b: string)
    requires Keyed(defs) && Coherent(defs)
    requires a in defs && b in defs[a].aliases
    ensures Touches(defs, o, a) <==> Touches(defs, o, b)
  {
    assert b in defs && defs[b] == defs[a];
    assert a in defs[a].aliases;
  }

  /** Occurrence lists that write two slots alike have the same last writer. */
  lemma {:induction false} LastTouchAlike(defs: Registry, found: seq<Occurrence>, a: string, b: string)
    requires forall j :: 0 <= j < |found| ==> (Touches(defs, found[j], a) <==> Touches(defs, found[j], b))
    ensures LastTouch(defs, found, a) == LastTouch(defs, found, b)
    decreases |found|
  {
    if |found| > 0 && !Touches(defs, found[|found| - 1], a) {
      LastTouchAlike(defs, found[..|found| - 1], a, b);
    }
  }

  /** Alias symmetry: in a coherent registry, every alias of a definition
      gives the same answer to `get`. */
  lemma AliasSymmetry(s: Instance, a: string, b: string)
    requires s.cache == Unparsed
    requires Keyed(s.definitions) && Coherent(s.definitions)
    requires a in s.definitions && b in s.definitions[a].aliases
    ensures Get(s, a).0 == Get(s, b).0
  {
    var defs := s.definitions;
    var found := Occurrences(s.args, defs, 0);
    forall j | 0 <= j < |found|
      ensures Touches(defs, found[j], a) <==> Touches(defs, found[j], b)
    {
      TouchesAliasesAlike(defs, found[j], a, b);
    }
    LastTouchAlike(defs, found, a, b);
    GetResolves(s, a);
    GetResolves(s, b);
  }
}

=== FILE: examples_argr.dfy ===
/** Concrete scenarios from the repository's tests, stated on the model. */
module ArgrExamples {
  import opened Wrappers
  import opened Vectors
  import opened Params
  import opened Argr
  import opened Strings

  /** `Vector(['New York', '469 sqmi'], ['city', 'area'])` labels both values;
      `Vector('foo')` is `'foo'`. */
  lemma VectorExamples()
    ensures Vector(List(["New York", "469 sqmi"]), Some(["city", "area"]))
            == Labeled(map["city" := Str("New York"), "area" := Str("469 sqmi")])
    ensures Vector(Str("foo"), None) == Str("foo")
  {
    VectorPosition(["New York", "469 sqmi"], ["city", "area"], 0);
    VectorPosition(["New York", "469 sqmi"], ["city", "area"], 1);
  }

  // ---------------------------------------------------------------------------
  // Steps shared by the scenarios: each reduces a concrete question to the
  // general properties of the parser.
  // ---------------------------------------------------------------------------

  /** The registry entries one `option` call adds for two aliases. */
  lemma TwoAliases(call: OptionCall, first: string, second: string)
    requires !call.Lookup? && Aliases(call.names) == [first, second]
    ensures (map a | a in Aliases(call.names) :: NewDefinition(call))
            == map[first := NewDefinition(call), second := NewDefinition(call)]
  {
  }

  /** The registry entry one `option` call adds for a single name. */
  lemma OneAlias(call: OptionCall, only: string)
    requires !call.Lookup? && Aliases(call.names) == [only]
    ensures (map a | a in Aliases(call.names) :: NewDefinition(call)) == map[only := NewDefinition(call)]
  {
  }

  /** One scan step: what token `i` yields, followed by the rest of the scan. */
  lemma ScanStep(args: seq<string>, defs: Registry, i: nat, found: seq<Occurrence>, next: nat, rest: seq<Occurrence>)
    requires i < |args| && Discover(args, defs, i) == (found, next) && Occurrences(args, defs, next) == rest
    ensures Occurrences(args, defs, i) == found + rest
  {
  }

  /** A flag without signature followed by one value and then a registered
      alias, or the end of the list. */
  lemma TakesOne(args: seq<string>, defs: Registry, i: nat)
    requires i + 1 < |args| && IsSingle(args[i]) && '=' !in StripDashes(args[i])
    requires !HasSignature(defs, StripDashes(args[i]))
    requires StripDashes(args[i + 1]) !in defs
    requires i + 2 == |args| || StripDashes(args[i + 2]) in defs
    ensures Discover(args, defs, i) == ([Occurrence(StripDashes(args[i]), List([args[i + 1]]))], i + 2)
  {
    DiscoverGreedy(args, defs, i);
    assert args[i + 1..i + 2] == [args[i + 1]];
  }

  /** `get` of a slot whose last writer is `found[j]`, recorded under `definition`. */
  lemma GetThrough(s: Instance, name: string, found: seq<Occurrence>, j: nat, definition: Option<Definition>)
    requires s.cache == Unparsed && Occurrences(s.args, s.definitions, 0) == found
    requires LastTouch(s.definitions, found, name) == Some(j)
    requires j < |found|
    requires definition == (if found[j].name in s.definitions then Some(s.definitions[found[j].name])
                            else None)
    ensures Get(s, name).0 == (if Truthy(found[j].raw) then Vector(found[j].raw, SignatureOf(definition)) else Null)
  {
    GetResolves(s, name);
    FreshValue(found[j].name, found[j].raw, definition);
  }

  /** `get` of a slot no occurrence wrote. */
  lemma GetFallsBack(s: Instance, name: string, found: seq<Occurrence>)
    requires s.cache == Unparsed && Occurrences(s.args, s.definitions, 0) == found
    requires LastTouch(s.definitions, found, name) == None
    ensures Get(s, name).0 == (if name in s.definitions then DefaultValue(s.definitions[name]) else Bool(false))
  {
    GetResolves(s, name);
  }

  // ---------------------------------------------------------------------------
  // `init('/usr/local/bin/node hello skipped-value -abc -g -50.2 232 -s=abc-def ignored')`
  // with options a/option_a, b/option_b, g/geocoord (signature lat, lng) and
  // s/jam (signature butter).
  // ---------------------------------------------------------------------------

  const Invocation: seq<string> :=
    ["/usr/local/bin/node", "hello", "skipped-value", "-abc", "-g", "-50.2", "232", "-s=abc-def", "ignored"]

  const CallA: OptionCall := Define(Many(["a", "option_a"]), "Option A")
  const CallB: OptionCall := Define(Many(["b", "option_b"]), "Option B")
  const CallG: OptionCall := DefineWith(Many(["g", "geocoord"]), "A geocoordinate", Null, List(["lat", "lng"]))
  const CallS: OptionCall := DefineWith(Many(["s", "jam"]), "Peanut", Null, List(["butter"]))

  const DefA: Definition := Definition(["a", "option_a"], "Option A", None, None)
  const DefB: Definition := Definition(["b", "option_b"], "Option B", None, None)
  const DefG: Definition :=
    Definition(["g", "geocoord"], "A geocoordinate", Some(Null), Some(["lat", "lng"]))
  const DefS: Definition := Definition(["s", "jam"], "Peanut", Some(Null), Some(["butter"]))

  const ScenarioArgs: seq<string> :=
    ["skipped-value", "-abc", "-g", "-50.2", "232", "-s=abc-def", "ignored"]

  /** The registry after each of the four calls. */
  const Defs1: Registry := map["a" := DefA, "option_a" := DefA]
  const Defs2: Registry := map["a" := DefA, "option_a" := DefA, "b" := DefB, "option_b" := DefB]
  const Defs3: Registry :=
    map["a" := DefA, "option_a" := DefA, "b" := DefB, "option_b" := DefB, "g" := DefG, "geocoord" := DefG]
  const ScenarioDefs: Registry :=
    map["a" := DefA, "option_a" := DefA, "b" := DefB, "option_b" := DefB,
        "g" := DefG, "geocoord" := DefG, "s" := DefS, "jam" := DefS]

  /** The state after `init` and the four `option` calls, in the test's order. */
  const ScenarioState: Instance := Instance(ScenarioDefs, ScenarioArgs, Unparsed)

  /** `init` keeps the tokens after the interpreter and the script. */
  lemma ScenarioInit()
    ensures Init(Empty, Tokens(Invocation), None) == Instance(map[], ScenarioArgs, Unparsed)
  {
    assert Invocation[2..] == ScenarioArgs;
  }

  /** The four `option` calls build `ScenarioDefs`, one alias pair at a time. */
  lemma ScenarioRegisterA()
    ensures CallOption(Instance(map[], ScenarioArgs, Unparsed), CallA) == Chained(Instance(Defs1, ScenarioArgs, Unparsed))
  {
    TwoAliases(CallA, "a", "option_a");
    assert NewDefinition(CallA) == DefA;
    assert map[] + Defs1 == Defs1;
  }

  lemma ScenarioRegisterB()
    ensures CallOption(Instance(Defs1, ScenarioArgs, Unparsed), CallB) == Chained(Instance(Defs2, ScenarioArgs, Unparsed))
  {
    TwoAliases(CallB, "b", "option_b");
    assert NewDefinition(CallB) == DefB;
    assert Defs1 + map["b" := DefB, "option_b" := DefB] == Defs2;
  }

  lemma ScenarioRegisterG()
    ensures CallOption(Instance(Defs2, ScenarioArgs, Unparsed), CallG) == Chained(Instance(Defs3, ScenarioArgs, Unparsed))
  {
    TwoAliases(CallG, "g", "geocoord");
    assert NewDefinition(CallG) == DefG;
    assert Defs2 + map["g" := DefG, "geocoord" := DefG] == Defs3;
  }

  lemma ScenarioRegisterS()
    ensures CallOption(Instance(Defs3, ScenarioArgs, Unparsed), CallS) == Chained(ScenarioState)
  {
    TwoAliases(CallS, "s", "jam");
    assert NewDefinition(CallS) == DefS;
    assert Defs3 + map["s" := DefS, "jam" := DefS] == ScenarioDefs;
  }

  /** Which definition each flag of the scenario finds. */
  lemma ScenarioLookups()
    ensures "a" in ScenarioDefs && ScenarioDefs["a"] == DefA
    ensures "b" in ScenarioDefs && ScenarioDefs["b"] == DefB
    ensures "g" in ScenarioDefs && ScenarioDefs["g"] == DefG
    ensures "s" in ScenarioDefs && ScenarioDefs["s"] == DefS
    ensures "c" !in ScenarioDefs
  {
  }

  /** `-abc` gives the three flags `a`, `b` and `c`. */
  lemma ScenarioToken1()
    ensures Discover(ScenarioArgs, ScenarioDefs, 1) ==
            ([Occurrence("a", Bool(true)), Occurrence("b", Bool(true)), Occurrence("c", Bool(true))], 2)
  {
    var t := ScenarioArgs[1];
    assert t == "-abc" && IsCombined(t);
    DiscoverCombined(ScenarioArgs, ScenarioDefs, 1);
    var d := Discover(ScenarioArgs, ScenarioDefs, 1);
    assert [t[1]] == "a" && [t[2]] == "b" && [t[3]] == "c";
    assert d.0[0] == Occurrence("a", Bool(true));
    assert d.0[1] == Occurrence("b", Bool(true));
    assert d.0[2] == Occurrence("c", Bool(true));
    assert |d.0| == 3 && d.1 == 2;
    assert d.0 == [Occurrence("a", Bool(true)), Occurrence("b", Bool(true)), Occurrence("c", Bool(true))];
  }

  /** `-g` takes the next two tokens, dash or not, for its signature. */
  lemma ScenarioToken2()
    ensures Discover(ScenarioArgs, ScenarioDefs, 2) == ([Occurrence("g", List(["-50.2", "232"]))], 5)
  {
    var args := ScenarioArgs;
    assert args[2] == "-g" && IsSingle(args[2]) && StripDashes(args[2]) == "g";
    ScenarioLookups();
    DiscoverSignature(args, ScenarioDefs, 2);
    assert args[3..5] == ["-50.2", "232"];
  }

  /** `-s=abc-def` carries its value inline. */
  lemma ScenarioToken5()
    ensures Discover(ScenarioArgs, ScenarioDefs, 5) == ([Occurrence("s", List(["abc-def"]))], 6)
  {
    var args := ScenarioArgs;
    assert args[5] == "-s=abc-def";
    assert IsSingle(args[5]);
    var body := StripDashes(args[5]);
    assert body == args[5][1..] == "s=abc-def";
    assert body[1] == '=';
    assert body[0] != '=';
    assert IndexOf(body, '=') == 1;
    assert body[..1] == "s" && body[2..] == "abc-def";
  }

  /** The occurrences of the scenario, in token order. */
  const ScenarioFound: seq<Occurrence> :=
    [Occurrence("a", Bool(true)), Occurrence("b", Bool(true)), Occurrence("c", Bool(true)),
     Occurrence("g", List(["-50.2", "232"])), Occurrence("s", List(["abc-def"]))]

  /** The scan: `skipped-value` and `ignored` are not flag-shaped, `-abc`
      gives three flags, `-g` takes the next two tokens whatever their shape,
      and `-s=abc-def` carries its value inline. */
  lemma ScenarioOccurrences()
    ensures Occurrences(ScenarioArgs, ScenarioDefs, 0) == ScenarioFound
  {
    var args := ScenarioArgs;
    var defs := ScenarioDefs;
    assert args[6] == "ignored" && args[0] == "skipped-value";
    var f := ScenarioFound;
    DiscoverIgnores(args, defs, 6);
    ScanStep(args, defs, 6, [], 7, []);
    ScenarioToken5();
    ScanStep(args, defs, 5, [f[4]], 6, []);
    ScenarioToken2();
    ScanStep(args, defs, 2, [f[3]], 5, [f[4]]);
    ScenarioToken1();
    ScanStep(args, defs, 1, [f[0], f[1], f[2]], 2, [f[3]] + [f[4]]);
    DiscoverIgnores(args, defs, 0);
    assert [f[0], f[1], f[2]] + ([f[3]] + [f[4]]) == f;
    ScanStep(args, defs, 0, [], 1, f);
  }

  /** Which occurrence of the scenario last wrote each looked-up slot. */
  lemma ScenarioLastTouches()
    ensures LastTouch(ScenarioDefs, ScenarioFound, "a") == Some(0)
    ensures LastTouch(ScenarioDefs, ScenarioFound, "c") == Some(2)
    ensures LastTouch(ScenarioDefs, ScenarioFound, "g") == Some(3)
    ensures LastTouch(ScenarioDefs, ScenarioFound, "s") == Some(4)
  {
    var f := ScenarioFound;
    var defs := ScenarioDefs;
    ScenarioLookups();
    assert !Touches(defs, f[1], "a") && !Touches(defs, f[2], "a") && !Touches(defs, f[3], "a")
        && !Touches(defs, f[4], "a");
    LastTouchIs(defs, f, "a", 0);
    assert !Touches(defs, f[3], "c") && !Touches(defs, f[4], "c");
    LastTouchIs(defs, f, "c", 2);
    assert !Touches(defs, f[4], "g");
    LastTouchIs(defs, f, "g", 3);
    LastTouchIs(defs, f, "s", 4);
  }

  /** `get` in the scenario, through the last writer `ScenarioFound[j]`. */
  lemma ScenarioGet(name: string, j: nat, definition: Option<Definition>)
    requires LastTouch(ScenarioDefs, ScenarioFound, name) == Some(j) && j < |ScenarioFound|
    requires definition == (if ScenarioFound[j].name in ScenarioDefs
                            then Some(ScenarioDefs[ScenarioFound[j].name]) else None)
    ensures Get(ScenarioState, name).0 ==
            (if Truthy(ScenarioFound[j].raw) then Vector(ScenarioFound[j].raw, SignatureOf(definition)) else Null)
  {
    ScenarioOccurrences();
    GetThrough(ScenarioState, name, ScenarioFound, j, definition);
  }

  /** `get('a')` is `true`, through the definition a/option_a. */
  lemma ScenarioGetA()
    ensures Get(ScenarioState, "a").0 == Bool(true)
  {
    ScenarioLastTouches();
    ScenarioGet("a", 0, Some(DefA));
  }

  /** `get('b')` is `true`, through the definition b/option_b. */
  lemma ScenarioGetB()
    ensures Get(ScenarioState, "b").0 == Bool(true)
  {
    var f := ScenarioFound;
    ScenarioLookups();
    assert !Touches(ScenarioDefs, f[2], "b") && !Touches(ScenarioDefs, f[3], "b") && !Touches(ScenarioDefs, f[4], "b");
    LastTouchIs(ScenarioDefs, f, "b", 1);
    ScenarioGet("b", 1, Some(DefB));
  }

  /** `get('c')` is `true` although `c` was never registered. */
  lemma ScenarioGetC()
    ensures Get(ScenarioState, "c").0 == Bool(true)
  {
    ScenarioLastTouches();
    ScenarioGet("c", 2, None);
  }

  /** `get('g')` is `{lat: '-50.2', lng: '232'}`: the two tokens after `-g`. */
  lemma ScenarioGetG()
    ensures Get(ScenarioState, "g").0 == Labeled(map["lat" := Str("-50.2"), "lng" := Str("232")])
  {
    ScenarioLastTouches();
    ScenarioGet("g", 3, Some(DefG));
    GeoVector();
  }

  /** The test's later calls read the cached parse: `get('g')` after
      `get('a')` still gives the labelled coordinates. */
  lemma ScenarioLaterGet()
    ensures Get(Get(ScenarioState, "a").1, "g").0 == Labeled(map["lat" := Str("-50.2"), "lng" := Str("232")])
  {
    GetAfterGet(ScenarioState, "a", "g");
    ScenarioGetG();
  }

  lemma GeoVector()
    ensures Vector(List(["-50.2", "232"]), Some(["lat", "lng"]))
            == Labeled(map["lat" := Str("-50.2"), "lng" := Str("232")])
  {
    VectorPosition(["-50.2", "232"], ["lat", "lng"], 0);
    VectorPosition(["-50.2", "232"], ["lat", "lng"], 1);
  }

  /** `get('s')` is `{butter: 'abc-def'}`: the inline value, labelled. */
  lemma ScenarioGetS()
    ensures Get(ScenarioState, "s").0 == Labeled(map["butter" := Str("abc-def")])
  {
    ScenarioLastTouches();
    ScenarioGet("s", 4, Some(DefS));
    JamVector();
  }

  lemma JamVector()
    ensures Vector(List(["abc-def"]), Some(["butter"])) == Labeled(map["butter" := Str("abc-def")])
  {
    VectorPosition(["abc-def"], ["butter"], 0);
  }

  // ---------------------------------------------------------------------------
  // `init('/usr/local/bin/node hello -o first.1 --open second.2')` with
  // `option(['o', 'open'], 'Open a file', 'myfile.dat')`.
  // ---------------------------------------------------------------------------

  const CallO: OptionCall := DefineWith(Many(["o", "open"]), "Open a file", Str("myfile.dat"), Undefined)
  const DefO: Definition := Definition(["o", "open"], "Open a file", Some(Str("myfile.dat")), None)
  const OpenArgs: seq<string> := ["-o", "first.1", "--open", "second.2"]
  const OpenDefs: Registry := map["o" := DefO, "open" := DefO]

  lemma OpenSetup()
    ensures Init(Empty, Tokens(["/usr/local/bin/node", "hello"] + OpenArgs), None)
            == Instance(map[], OpenArgs, Unparsed)
    ensures CallOption(Instance(map[], OpenArgs, Unparsed), CallO) == Chained(Instance(OpenDefs, OpenArgs, Unparsed))
  {
    assert (["/usr/local/bin/node", "hello"] + OpenArgs)[2..] == OpenArgs;
    TwoAliases(CallO, "o", "open");
    assert NewDefinition(CallO) == DefO;
    assert map[] + OpenDefs == OpenDefs;
  }

  /** The shapes of the tokens of `-o first.1 --open second.2`. */
  lemma OpenTokens()
    ensures IsSingle(OpenArgs[0]) && StripDashes(OpenArgs[0]) == "o"
    ensures StripDashes(OpenArgs[1]) == "first.1"
    ensures IsSingle(OpenArgs[2]) && StripDashes(OpenArgs[2]) == "open"
    ensures StripDashes(OpenArgs[3]) == "second.2"
  {
    assert OpenArgs[0] == "-o" && OpenArgs[2] == "--open";
  }

  const OpenFound: seq<Occurrence> := [Occurrence("o", List(["first.1"])), Occurrence("open", List(["second.2"]))]

  /** `-o` takes `first.1` and stops at `--open`, a registered alias. */
  lemma OpenFirst()
    ensures Discover(OpenArgs, OpenDefs, 0) == ([OpenFound[0]], 2)
  {
    OpenTokens();
    TakesOne(OpenArgs, OpenDefs, 0);
  }

  /** `--open` takes `second.2`, the last token. */
  lemma OpenSecond()
    ensures Discover(OpenArgs, OpenDefs, 2) == ([OpenFound[1]], 4)
  {
    OpenTokens();
    TakesOne(OpenArgs, OpenDefs, 2);
  }

  lemma OpenOccurrences()
    ensures Occurrences(OpenArgs, OpenDefs, 0) == OpenFound
  {
    var f := OpenFound;
    OpenSecond();
    ScanStep(OpenArgs, OpenDefs, 2, [f[1]], 4, []);
    OpenFirst();
    ScanStep(OpenArgs, OpenDefs, 0, [f[0]], 2, [f[1]]);
  }

  /** `get('o')` is `['second.2']`: the later `--open` overwrote the slot of
      its alias `o`. */
  lemma LastOccurrenceWins()
    ensures Get(Instance(OpenDefs, OpenArgs, Unparsed), "o").0 == List(["second.2"])
  {
    OpenOccurrences();
    assert "open" in OpenDefs && OpenDefs["open"] == DefO;
    LastTouchIs(OpenDefs, OpenFound, "o", 1);
    GetThrough(Instance(OpenDefs, OpenArgs, Unparsed), "o", OpenFound, 1, Some(DefO));
  }

  // ---------------------------------------------------------------------------
  // `init('/usr/local/bin/node hello -k')` with
  // `option(['o', 'open'], 'Open a file', 'myfile.m')`.
  // ---------------------------------------------------------------------------

  const DefM: Definition := Definition(["o", "open"], "Open a file", Some(Str("myfile.m")), None)
  const TrailingDefs: Registry := map["o" := DefM, "open" := DefM]
  const CallM: OptionCall := DefineWith(Many(["o", "open"]), "Open a file", Str("myfile.m"), Undefined)

  /** `init` keeps only `-k`, and the `option` call registers o/open. */
  lemma TrailingSetup()
    ensures Init(Empty, Tokens(["/usr/local/bin/node", "hello", "-k"]), None) == Instance(map[], ["-k"], Unparsed)
    ensures CallOption(Instance(map[], ["-k"], Unparsed), CallM) == Chained(Instance(TrailingDefs, ["-k"], Unparsed))
  {
    assert ["/usr/local/bin/node", "hello", "-k"][2..] == ["-k"];
    TwoAliases(CallM, "o", "open");
    assert NewDefinition(CallM) == DefM;
    assert map[] + TrailingDefs == TrailingDefs;
  }

  lemma TrailingOccurrences()
    ensures Occurrences(["-k"], TrailingDefs, 0) == [Occurrence("k", Null)]
  {
    assert ["-k"][0] == "-k" && IsSingle("-k") && StripDashes("-k") == "k";
    DiscoverGreedy(["-k"], TrailingDefs, 0);
    ScanStep(["-k"], TrailingDefs, 0, [Occurrence("k", Null)], 1, []);
  }

  /** `get('o')` falls back to the default `'myfile.m'`, `get('p')` is
      `false`, and the trailing flag `-k`, with nothing after it, is `null`. */
  lemma DefaultsAndTrailingFlag()
    ensures Get(Instance(TrailingDefs, ["-k"], Unparsed), "o").0 == Str("myfile.m")
    ensures Get(Instance(TrailingDefs, ["-k"], Unparsed), "p").0 == Bool(false)
    ensures Get(Instance(TrailingDefs, ["-k"], Unparsed), "k").0 == Null
  {
    TrailingOccurrences();
    var s := Instance(TrailingDefs, ["-k"], Unparsed);
    var found := [Occurrence("k", Null)];
    assert "k" !in TrailingDefs && "p" !in TrailingDefs;
    assert !Touches(TrailingDefs, found[0], "o") && !Touches(TrailingDefs, found[0], "p");
    LastTouchNone(TrailingDefs, found, "o");
    LastTouchNone(TrailingDefs, found, "p");
    LastTouchIs(TrailingDefs, found, "k", 0);
    GetFallsBack(s, "o", found);
    GetFallsBack(s, "p", found);
    GetThrough(s, "k", found, 0, None);
  }

  // ---------------------------------------------------------------------------
  // `init('/usr/local/bin/node hello skipped-value -fbqKx ignore -a')` with
  // options f/foo, q, K/kolor, a/About and u/wasNotProvided, none with a
  // default.
  // ---------------------------------------------------------------------------

  const DefF: Definition := Definition(["f", "foo"], "Sed ut", None, None)
  const DefQ: Definition := Definition(["q"], "Lorem ipsum", None, None)
  const DefK: Definition := Definition(["K", "kolor"], "Ipsum", None, None)
  const DefAbout: Definition := Definition(["a", "About"], "Dolor ut", None, None)
  const DefU: Definition := Definition(["u", "wasNotProvided"], "Not defined", None, None)
  const ComboDefs: Registry :=
    map["f" := DefF, "foo" := DefF, "q" := DefQ, "K" := DefK, "kolor" := DefK,
        "a" := DefAbout, "About" := DefAbout, "u" := DefU, "wasNotProvided" := DefU]
  const ComboArgs: seq<string> := ["skipped-value", "-fbqKx", "ignore", "-a"]
  const ComboState: Instance := Instance(ComboDefs, ComboArgs, Unparsed)

  const CallF: OptionCall := Define(Many(["f", "foo"]), "Sed ut")
  const CallQ: OptionCall := Define(One("q"), "Lorem ipsum")
  const CallK: OptionCall := Define(Many(["K", "kolor"]), "Ipsum")
  const CallAbout: OptionCall := Define(Many(["a", "About"]), "Dolor ut")
  const CallU: OptionCall := Define(Many(["u", "wasNotProvided"]), "Not defined")

  /** The registry after each of the first four calls. */
  const Combo1: Registry := map["f" := DefF, "foo" := DefF]
  const Combo2: Registry := map["f" := DefF, "foo" := DefF, "q" := DefQ]
  const Combo3: Registry := map["f" := DefF, "foo" := DefF, "q" := DefQ, "K" := DefK, "kolor" := DefK]
  const Combo4: Registry :=
    map["f" := DefF, "foo" := DefF, "q" := DefQ, "K" := DefK, "kolor" := DefK, "a" := DefAbout, "About" := DefAbout]

  /** `init` keeps the tokens after the interpreter and the script. */
  lemma ComboInit()
    ensures Init(Empty, Tokens(["/usr/local/bin/node", "hello"] + ComboArgs), None) == Instance(map[], ComboArgs, Unparsed)
  {
    assert (["/usr/local/bin/node", "hello"] + ComboArgs)[2..] == ComboArgs;
  }

  /** The five `option` calls build `ComboDefs`, in the test's order. */
  lemma ComboRegisterF()
    ensures CallOption(Instance(map[], ComboArgs, Unparsed), CallF) == Chained(Instance(Combo1, ComboArgs, Unparsed))
  {
    TwoAliases(CallF, "f", "foo");
    assert NewDefinition(CallF) == DefF;
    assert map[] + Combo1 == Combo1;
  }

  lemma ComboRegisterQ()
    ensures CallOption(Instance(Combo1, ComboArgs, Unparsed), CallQ) == Chained(Instance(Combo2, ComboArgs, Unparsed))
  {
    assert Aliases(One("q")) == ["q"];
    OneAlias(CallQ, "q");
    assert NewDefinition(CallQ) == DefQ;
    assert Combo1 + map["q" := DefQ] == Combo2;
  }

  lemma ComboRegisterK()
    ensures CallOption(Instance(Combo2, ComboArgs, Unparsed), CallK) == Chained(Instance(Combo3, ComboArgs, Unparsed))
  {
    TwoAliases(CallK, "K", "kolor");
    assert NewDefinition(CallK) == DefK;
    assert Combo2 + map["K" := DefK, "kolor" := DefK] == Combo3;
  }

  lemma ComboRegisterAbout()
    ensures CallOption(Instance(Combo3, ComboArgs, Unparsed), CallAbout) == Chained(Instance(Combo4, ComboArgs, Unparsed))
  {
    TwoAliases(CallAbout, "a", "About");
    assert NewDefinition(CallAbout) == DefAbout;
    assert Combo3 + map["a" := DefAbout, "About" := DefAbout] == Combo4;
  }

  lemma ComboRegisterU()
    ensures CallOption(Instance(Combo4, ComboArgs, Unparsed), CallU) == Chained(ComboState)
  {
    TwoAliases(CallU, "u", "wasNotProvided");
    assert NewDefinition(CallU) == DefU;
    assert Combo4 + map["u" := DefU, "wasNotProvided" := DefU] == ComboDefs;
  }
  const ComboFound: seq<Occurrence> :=
    [Occurrence("f", Bool(true)), Occurrence("b", Bool(true)), Occurrence("q", Bool(true)),
     Occurrence("K", Bool(true)), Occurrence("x", Bool(true)), Occurrence("a", Null)]

  /** `-fbqKx` gives five flags and does not take `ignore` as a value. */
  lemma ComboFlags()
    ensures Discover(ComboArgs, ComboDefs, 1) ==
            ([Occurrence("f", Bool(true)), Occurrence("b", Bool(true)), Occurrence("q", Bool(true)),
              Occurrence("K", Bool(true)), Occurrence("x", Bool(true))], 2)
  {
    var t := ComboArgs[1];
    assert t == "-fbqKx" && IsCombined(t);
    DiscoverCombined(ComboArgs, ComboDefs, 1);
    var d := Discover(ComboArgs, ComboDefs, 1);
    assert [t[1]] == "f" && [t[2]] == "b" && [t[3]] == "q" && [t[4]] == "K" && [t[5]] == "x";
    assert d.0[0] == Occurrence("f", Bool(true));
    assert d.0[1] == Occurrence("b", Bool(true));
    assert d.0[2] == Occurrence("q", Bool(true));
    assert d.0[3] == Occurrence("K", Bool(true));
    assert d.0[4] == Occurrence("x", Bool(true));
    assert |d.0| == 5 && d.1 == 2;
    assert d.0 == [Occurrence("f", Bool(true)), Occurrence("b", Bool(true)), Occurrence("q", Bool(true)),
                   Occurrence("K", Bool(true)), Occurrence("x", Bool(true))];
  }

  /** `-a`, the last token, has nothing to take: its raw value is `null`. */
  lemma ComboTrailing()
    ensures Discover(ComboArgs, ComboDefs, 3) == ([ComboFound[5]], 4)
  {
    assert ComboArgs[3] == "-a" && IsSingle(ComboArgs[3]) && StripDashes(ComboArgs[3]) == "a";
    DiscoverGreedy(ComboArgs, ComboDefs, 3);
  }

  lemma ComboOccurrences()
    ensures Occurrences(ComboArgs, ComboDefs, 0) == ComboFound
  {
    var args := ComboArgs;
    var f := ComboFound;
    ComboTrailing();
    ScanStep(args, ComboDefs, 3, [f[5]], 4, []);
    assert args[2] == "ignore" && args[0] == "skipped-value";
    DiscoverIgnores(args, ComboDefs, 2);
    ScanStep(args, ComboDefs, 2, [], 3, [f[5]]);
    ComboFlags();
    ScanStep(args, ComboDefs, 1, [f[0], f[1], f[2], f[3], f[4]], 2, [f[5]]);
    assert [f[0], f[1], f[2], f[3], f[4]] + [f[5]] == f;
    DiscoverIgnores(args, ComboDefs, 0);
    ScanStep(args, ComboDefs, 0, [], 1, f);
  }

  /** `get` in the combined scenario, through the last writer `ComboFound[j]`. */
  lemma ComboGet(name: string, j: nat, definition: Option<Definition>)
    requires LastTouch(ComboDefs, ComboFound, name) == Some(j) && j < |ComboFound|
    requires definition == (if ComboFound[j].name in ComboDefs
                            then Some(ComboDefs[ComboFound[j].name]) else None)
    ensures Get(ComboState, name).0 ==
            (if Truthy(ComboFound[j].raw) then Vector(ComboFound[j].raw, SignatureOf(definition)) else Null)
  {
    ComboOccurrences();
    GetThrough(ComboState, name, ComboFound, j, definition);
  }

  /** The registry entries the combined scenario's occurrences find. */
  lemma ComboLookups()
    ensures ComboDefs["f"] == DefF && ComboDefs["q"] == DefQ && ComboDefs["K"] == DefK
    ensures ComboDefs["a"] == DefAbout && "b" !in ComboDefs && "x" !in ComboDefs
  {
  }

  /** No occurrence after the first writes the slot `k`, which `f` writes. */
  lemma ComboLastTouchF(k: string)
    requires k in DefF.aliases
    ensures LastTouch(ComboDefs, ComboFound, k) == Some(0)
  {
    var f := ComboFound;
    ComboLookups();
    assert k == "f" || k == "foo";
    assert !Touches(ComboDefs, f[1], k) && !Touches(ComboDefs, f[2], k) && !Touches(ComboDefs, f[3], k);
    assert !Touches(ComboDefs, f[4], k) && !Touches(ComboDefs, f[5], k);
    LastTouchIs(ComboDefs, f, k, 0);
  }

  /** `get('f')` and `get('foo')` are `true` through the definition f/foo. */
  lemma ComboProvided()
    ensures Get(ComboState, "f").0 == Bool(true)
    ensures Get(ComboState, "foo").0 == Bool(true)
  {
    ComboLastTouchF("f");
    ComboLastTouchF("foo");
    assert ComboDefs["f"] == DefF;
    ComboGet("f", 0, Some(DefF));
    ComboGet("foo", 0, Some(DefF));
  }

  /** `get('q')` is `true`: an option registered under its short name only. */
  lemma ComboShortOnly()
    ensures Get(ComboState, "q").0 == Bool(true)
  {
    var f := ComboFound;
    ComboLookups();
    assert !Touches(ComboDefs, f[3], "q") && !Touches(ComboDefs, f[4], "q") && !Touches(ComboDefs, f[5], "q");
    LastTouchIs(ComboDefs, f, "q", 2);
    ComboGet("q", 2, Some(DefQ));
  }

  /** `get('b')` is `true` although `b` was never registered. */
  lemma ComboUnregistered()
    ensures Get(ComboState, "b").0 == Bool(true)
  {
    var f := ComboFound;
    ComboLookups();
    assert !Touches(ComboDefs, f[2], "b") && !Touches(ComboDefs, f[3], "b");
    assert !Touches(ComboDefs, f[4], "b") && !Touches(ComboDefs, f[5], "b");
    LastTouchIs(ComboDefs, f, "b", 1);
    ComboGet("b", 1, None);
  }

  /** No occurrence writes the slot `k` of u/wasNotProvided. */
  lemma ComboUntouched(k: string)
    requires k in DefU.aliases
    ensures LastTouch(ComboDefs, ComboFound, k) == None
  {
    var f := ComboFound;
    ComboLookups();
    assert k == "u" || k == "wasNotProvided";
    assert !Touches(ComboDefs, f[0], k) && !Touches(ComboDefs, f[1], k) && !Touches(ComboDefs, f[2], k);
    assert !Touches(ComboDefs, f[3], k) && !Touches(ComboDefs, f[4], k) && !Touches(ComboDefs, f[5], k);
    LastTouchNone(ComboDefs, f, k);
  }

  /** `get('u')` and `get('wasNotProvided')` are `false`: registered with two
      arguments and never given. */
  lemma ComboNotProvided()
    ensures Get(ComboState, "u").0 == Bool(false)
    ensures Get(ComboState, "wasNotProvided").0 == Bool(false)
  {
    ComboUntouched("u");
    ComboUntouched("wasNotProvided");
    ComboOccurrences();
    GetFallsBack(ComboState, "u", ComboFound);
    GetFallsBack(ComboState, "wasNotProvided", ComboFound);
  }

  /** `get('a')` is `null`, not `true`: the trailing single flag took no value. */
  lemma ComboTrailingIsNull()
    ensures Get(ComboState, "a").0 == Null
  {
    LastTouchIs(ComboDefs, ComboFound, "a", 5);
    assert ComboDefs["a"] == DefAbout;
    ComboGet("a", 5, Some(DefAbout));
  }

  /** `option('p', 'Lorem ipsum', 'abc')` then `option('p')`: the definition
      comes back with value `'abc'` and its description. */
  lemma OptionGetter()
    ensures var s := CallOption(Empty, DefineWith(One("p"), "Lorem ipsum", Str("abc"), Undefined)).state;
            var r := CallOption(s, Lookup("p"));
            && r.Found? && r.definition.Some?
            && DefaultValue(r.definition.value) == Str("abc")
            && r.definition.value.description == "Lorem ipsum"
    ensures CallOption(Empty, Lookup("p")) == Found(None)
  {
    assert Aliases(One("p")) == ["p"];
  }

  // ---------------------------------------------------------------------------
  // Alias symmetry needs a coherent registry: `option(['b', 'y'], ...)` then
  // `option(['a', 'b'], ...)` leaves `y` pointing at a definition whose alias
  // `b` now belongs to another one.
  // ---------------------------------------------------------------------------

  const DefBY: Definition := Definition(["b", "y"], "", None, None)
  const DefAB: Definition := Definition(["a", "b"], "", None, None)
  const OverlapDefs: Registry := map["y" := DefBY, "a" := DefAB, "b" := DefAB]
  const OverlapArgs: seq<string> := ["-a", "1", "-y", "2"]
  const CallBY: OptionCall := Define(Many(["b", "y"]), "")
  const CallAB: OptionCall := Define(Many(["a", "b"]), "")

  /** `option(['b', 'y'], '')` then `option(['a', 'b'], '')` build
      `OverlapDefs`: the second call takes `b` over and leaves `y` behind. */
  lemma OverlapRegisterBY()
    ensures CallOption(Instance(map[], OverlapArgs, Unparsed), CallBY)
            == Chained(Instance(map["b" := DefBY, "y" := DefBY], OverlapArgs, Unparsed))
  {
    TwoAliases(CallBY, "b", "y");
    assert NewDefinition(CallBY) == DefBY;
    assert map[] + map["b" := DefBY, "y" := DefBY] == map["b" := DefBY, "y" := DefBY];
  }

  lemma OverlapRegisterAB()
    ensures CallOption(Instance(map["b" := DefBY, "y" := DefBY], OverlapArgs, Unparsed), CallAB)
            == Chained(Instance(OverlapDefs, OverlapArgs, Unparsed))
  {
    TwoAliases(CallAB, "a", "b");
    assert NewDefinition(CallAB) == DefAB;
    assert map["b" := DefBY, "y" := DefBY] + map["a" := DefAB, "b" := DefAB] == OverlapDefs;
  }
  const OverlapFound: seq<Occurrence> := [Occurrence("a", List(["1"])), Occurrence("y", List(["2"]))]

  /** The shapes of the overlap scenario's tokens. */
  lemma OverlapTokens()
    ensures IsSingle(OverlapArgs[0]) && StripDashes(OverlapArgs[0]) == "a"
    ensures StripDashes(OverlapArgs[1]) == "1"
    ensures IsSingle(OverlapArgs[2]) && StripDashes(OverlapArgs[2]) == "y"
    ensures StripDashes(OverlapArgs[3]) == "2"
  {
    assert OverlapArgs[0] == "-a" && OverlapArgs[2] == "-y";
  }

  lemma OverlapFirst()
    ensures Discover(OverlapArgs, OverlapDefs, 0) == ([OverlapFound[0]], 2)
  {
    OverlapTokens();
    TakesOne(OverlapArgs, OverlapDefs, 0);
  }

  lemma OverlapSecond()
    ensures Discover(OverlapArgs, OverlapDefs, 2) == ([OverlapFound[1]], 4)
  {
    OverlapTokens();
    TakesOne(OverlapArgs, OverlapDefs, 2);
  }

  lemma OverlapOccurrences()
    ensures Occurrences(OverlapArgs, OverlapDefs, 0) == OverlapFound
  {
    var f := OverlapFound;
    OverlapSecond();
    ScanStep(OverlapArgs, OverlapDefs, 2, [f[1]], 4, []);
    OverlapFirst();
    ScanStep(OverlapArgs, OverlapDefs, 0, [f[0]], 2, [f[1]]);
  }

  lemma OverlapLastTouches()
    ensures LastTouch(OverlapDefs, OverlapFound, "a") == Some(0)
    ensures LastTouch(OverlapDefs, OverlapFound, "b") == Some(1)
  {
    var f := OverlapFound;
    assert OverlapDefs["a"] == DefAB && OverlapDefs["y"] == DefBY;
    assert !Touches(OverlapDefs, f[1], "a");
    LastTouchIs(OverlapDefs, f, "a", 0);
    LastTouchIs(OverlapDefs, f, "b", 1);
  }

  /** `a` and `b` are aliases of one definition, yet `get('a')` is `['1']` and
      `get('b')` is `['2']`: `-y` wrote `b` through the older definition. */
  lemma OverlappingAliasesDiverge()
    ensures "a" in OverlapDefs && "b" in OverlapDefs["a"].aliases
    ensures Get(Instance(OverlapDefs, OverlapArgs, Unparsed), "a").0 == List(["1"])
    ensures Get(Instance(OverlapDefs, OverlapArgs, Unparsed), "b").0 == List(["2"])
  {
    var f := OverlapFound;
    var s := Instance(OverlapDefs, OverlapArgs, Unparsed);
    OverlapOccurrences();
    OverlapLastTouches();
    assert OverlapDefs["a"] == DefAB && OverlapDefs["y"] == DefBY;
    GetThrough(s, "a", f, 0, Some(DefAB));
    GetThrough(s, "b", f, 1, Some(DefBY));
  }

  /** Registering o/open a second time replaces the whole alias list, so the
      registry stays keyed and coherent. */
  lemma ReRegisterStaysCoherent()
    ensures Keyed(OpenDefs) && Coherent(OpenDefs)
    ensures var s := CallOption(Instance(OpenDefs, OpenArgs, Unparsed), CallM).state;
            Keyed(s.definitions) && Coherent(s.definitions)
  {
    assert OpenDefs["o"] == DefO && OpenDefs["open"] == DefO;
    assert Keyed(OpenDefs);
    assert Coherent(OpenDefs);
    RegisterKeepsCoherent(Instance(OpenDefs, OpenArgs, Unparsed), CallM);
  }
}

=== FILE: param.dfy ===
/** One parsed occurrence of an option, with its memoised value vector. */
module Params {
  import opened Wrappers
  import opened Vectors

  /** An option definition as `option` registers it: every alias it was
      registered under, its description, the default given as third argument
      (`None` when `option` was called with only two arguments) and the
      signature (`Some` exactly when the fourth argument was an array). */
  datatype Definition = Definition(
    aliases: seq<string>,
    description: string,
    default: Option<Value>,
    signature: Option<seq<string>>)

  /** One occurrence: the name it was found under, its raw value (`Bool(true)`
      from a combined flag, `Null` when nothing followed it, or a list of
      strings), the definition registered under that name if any, and the
      memo slot of `value()`, `Null` until the vector is computed. */
  datatype Param = Param(name: string, raw: Value, definition: Option<Definition>, memo: Value)

  /** `Param(name, values, definition)`: a fresh occurrence, nothing memoised yet. */
  function NewParam(name: string, raw: Value, definition: Option<Definition>): (p: Param)
    ensures Name(p) == name && p.raw == raw && p.definition == definition
    ensures IsDefined(p) <==> definition.Some?
    ensures Consistent(p) && Expected(p) == (if Truthy(raw) then Vector(raw, SignatureOf(definition)) else Null)
  {
    Param(name, raw, definition, Null)
  }

  /** `name()` */
  function Name(p: Param): string {
    p.name
  }

  /** `isDefined()` */
  predicate IsDefined(p: Param) {
    p.definition.Some?
  }

  /** `definition && definition.signature`, the signature handed to `Vector`. */
  function SignatureOf(definition: Option<Definition>): Option<seq<string>> {
    if definition.Some? then definition.value.signature else None
  }

  /** What `value()` stands for: `null` for a falsy raw value, otherwise the
      raw value projected through the definition's signature. */
  function Expected(p: Param): Value {
    if Truthy(p.raw) then Vector(p.raw, SignatureOf(p.definition)) else Null
  }

  /** The memo slot is empty, or holds the vector of a truthy raw value. */
  predicate Consistent(p: Param) {
    p.memo == Null || (Truthy(p.raw) && p.memo == Vector(p.raw, SignatureOf(p.definition)))
  }

  /** Whether a call of `value()` would build the vector rather than return the memo. */
  predicate WillCompute(p: Param) {
    !Truthy(p.memo) && Truthy(p.raw)
  }

  /** `value()`: the value, and the occurrence with its memo slot updated. */
  function ValueOf(p: Param): (r: (Value, Param))
    ensures r.1.name == p.name && r.1.raw == p.raw && r.1.definition == p.definition
    ensures Consistent(p) ==> Consistent(r.1) && r.0 == Expected(p)
    ensures !WillCompute(r.1)
  {
    if WillCompute(p) then
      var v := Vector(p.raw, SignatureOf(p.definition));
      VectorKeepsTruthy(p.raw, SignatureOf(p.definition));
      (v, p.(memo := v))
    else
      (p.memo, p)
  }

  /** A second `value()` returns the same value and changes nothing more: the
      vector is built at most once. */
  lemma ValueOfMemoised(p: Param)
    ensures ValueOf(ValueOf(p).1) == (ValueOf(p).0, ValueOf(p).1)
  {
  }

  /** The three cases of a fresh occurrence's value: `null` for a falsy raw
      value, the vector for a truthy one, and the raw value itself when no
      definition (hence no signature) was supplied. */
  lemma FreshValue(name: string, raw: Value, definition: Option<Definition>)
    ensures !Truthy(raw) ==> ValueOf(NewParam(name, raw, definition)).0 == Null
    ensures Truthy(raw) ==> ValueOf(NewParam(name, raw, definition)).0 == Vector(raw, SignatureOf(definition))
    ensures Truthy(raw) && definition.None? ==> ValueOf(NewParam(name, raw, definition)).0 == raw
  {
  }
}

=== FILE: strings.dfy ===
/** The few string operations the parser performs: the character class of its
    regular expressions, `indexOf`, and `split` on one separator character. */
module Strings {

  /** The character class `[0-9a-zA-Z]` used by both token patterns. */
  predicate IsAlnum(c: char) {
    ('0' <= c <= '9') || ('a' <= c <= 'z') || ('A' <= c <= 'Z')
  }

  /** Position of the first `c` in `s`; JavaScript's `indexOf`, with "not found"
      (-1 there) reported as `|s|`. */
  function IndexOf(s: string, c: char): (k: nat)
    ensures k <= |s|
    ensures k < |s| ==> s[k] == c
    ensures forall j :: 0 <= j < k ==> s[j] != c
  {
    if |s| == 0 then 0
    else if s[0] == c then 0
    else 1 + IndexOf(s[1..], c)
  }

  /** `s.split(sep)` for a one-character separator: the pieces between
      separators, empty pieces included, and always at least one piece. */
  function Split(s: string, sep: char): (parts: seq<string>)
    ensures |parts| >= 1
    ensures forall j :: 0 <= j < |parts| ==> sep !in parts[j]
    decreases |s|
  {
    var k := IndexOf(s, sep);
    if k == |s| then [s] else [s[..k]] + Split(s[k + 1..], sep)
  }

  /** `parts.join(sep)`: the inverse of `Split`. */
  function Join(parts: seq<string>, sep: char): string
    requires |parts| >= 1
  {
    if |parts| == 1 then parts[0] else parts[0] + [sep] + Join(parts[1..], sep)
  }

  /** Joining the pieces of a split gives back the original string. */
  lemma {:induction false} JoinSplit(s: string, sep: char)
    ensures Join(Split(s, sep), sep) == s
    decreases |s|
  {
    var k := IndexOf(s, sep);
    if k < |s| {
      JoinSplit(s[k + 1..], sep);
      assert s == s[..k] + [sep] + s[k + 1..];
    }
  }

  /** The first separator of `a + [sep] + b` sits right after `a` when `a` holds none. */
  lemma IndexOfAfterPrefix(a: string, sep: char, b: string)
    requires sep !in a
    ensures IndexOf(a + [sep] + b, sep) == |a|
  {
    var s := a + [sep] + b;
    assert s[|a|] == sep;
    assert forall j :: 0 <= j < |a| ==> s[j] == a[j];
  }

  /** Splitting the join of separator-free pieces gives back the pieces. */
  lemma {:induction false} SplitJoin(parts: seq<string>, sep: char)
    requires |parts| >= 1
    requires forall j :: 0 <= j < |parts| ==> sep !in parts[j]
    ensures Split(Join(parts, sep), sep) == parts
    decreases |parts|
  {
    if |parts| == 1 {
      assert IndexOf(parts[0], sep) == |parts[0]|;
    } else {
      var rest := Join(parts[1..], sep);
      var s := parts[0] + [sep] + rest;
      IndexOfAfterPrefix(parts[0], sep, rest);
      assert s[..|parts[0]|] == parts[0];
      assert s[|parts[0]| + 1..] == rest;
      SplitJoin(parts[1..], sep);
      assert parts == [parts[0]] + parts[1..];
    }
  }
}

=== FILE: vector.dfy ===
/** The value vector: raw option values, optionally labelled by a signature. */
module Vectors {
  import opened Wrappers

  /** The JavaScript values that flow through the parser. Arrays only ever
      hold strings here: command-line tokens, or a default given as a list
      of strings. `Labeled` is the plain object a signature produces; a label
      past the end of the raw values holds `Undefined`. */
  datatype Value =
    | Undefined
    | Null
    | Bool(b: bool)
    | Str(s: string)
    | List(items: seq<string>)
    | Labeled(fields: map<string, Value>)

  /** JavaScript truthiness of a value (an empty array is truthy). */
  predicate Truthy(v: Value) {
    match v
    case Undefined => false
    case Null => false
    case Bool(b) => b
    case Str(s) => s != ""
    case List(_) => true
    case Labeled(_) => true
  }

  /** `values[i]`: the string at position `i`, or `undefined` past the end. */
  function At(items: seq<string>, i: nat): Value {
    if i < |items| then Str(items[i]) else Undefined
  }

  /** The last position at which `name` appears in `labels`. */
  function LastIndex(labels: seq<string>, name: string): (k: nat)
    requires name in labels
    ensures k < |labels| && labels[k] == name
    ensures forall j :: k < j < |labels| ==> labels[j] != name
  {
    if labels[|labels| - 1] == name then |labels| - 1
    else LastIndex(labels[..|labels| - 1], name)
  }

  /** The object built by `signature.forEach((name, i) => v[name] = values[i])`:
      labels are assigned in order, so a later position overwrites an earlier one. */
  function Label(items: seq<string>, labels: seq<string>): (fields: map<string, Value>)
    ensures fields.Keys == set l | l in labels
    decreases |labels|
  {
    if |labels| == 0 then map[]
    else
      var init := labels[..|labels| - 1];
      assert labels == init + [labels[|labels| - 1]];
      Label(items, init)[labels[|labels| - 1] := At(items, |labels| - 1)]
  }

  /** `Vector(values, signature)`: when both are arrays, an object with exactly
      the signature's labels as keys; otherwise `values` itself. */
  function Vector(values: Value, signature: Option<seq<string>>): (r: Value)
    ensures values.List? && signature.Some? ==>
              r.Labeled? && r.fields.Keys == set l | l in signature.value
    ensures !(values.List? && signature.Some?) ==> r == values
  {
    if values.List? && signature.Some? then Labeled(Label(values.items, signature.value))
    else values
  }

  /** Each label holds the raw value at the LAST position where the label
      appears in the signature (or `undefined` when the raw values are shorter). */
  lemma {:induction false} LabelAtLastIndex(items: seq<string>, labels: seq<string>, name: string)
    requires name in labels
    ensures Label(items, labels)[name] == At(items, LastIndex(labels, name))
    decreases |labels|
  {
    var n := |labels| - 1;
    if labels[n] != name {
      var init := labels[..n];
      assert labels == init + [labels[n]];
      assert name in init;
      LabelAtLastIndex(items, init, name);
    }
  }

  /** The label at position `i` maps to `values[i]` (`undefined` when there is
      no such raw value), unless the same label reappears later in the
      signature, in which case the later position wins. */
  lemma VectorPosition(items: seq<string>, labels: seq<string>, i: nat)
    requires i < |labels|
    requires forall j :: i < j < |labels| ==> labels[j] != labels[i]
    ensures Vector(List(items), Some(labels)).fields[labels[i]]
            == (if i < |items| then Str(items[i]) else Undefined)
  {
    LabelAtLastIndex(items, labels, labels[i]);
  }

  /** Raw values beyond the signature's length do not reach the labelled result. */
  lemma VectorDropsExtra(items: seq<string>, labels: seq<string>)
    requires |items| >= |labels|
    ensures Vector(List(items), Some(labels)) == Vector(List(items[..|labels|]), Some(labels))
  {
    var a := Label(items, labels);
    var b := Label(items[..|labels|], labels);
    forall l | l in labels
      ensures a[l] == b[l]
    {
      LabelAtLastIndex(items, labels, l);
      LabelAtLastIndex(items[..|labels|], labels, l);
    }
    assert a.Keys == b.Keys;
  }

  /** A vector of a truthy value is truthy, so a computed vector can serve as
      its own "already computed" marker. */
  lemma VectorKeepsTruthy(values: Value, signature: Option<seq<string>>)
    ensures Truthy(Vector(values, signature)) == Truthy(values)
  {
  }
}

=== FILE: wrappers.dfy ===
/** The optional-value datatype the rest of the model uses where the JavaScript
    source uses `undefined` or `null` to mean "nothing here". */
module Wrappers {

  datatype Option<+T> = None | Some(value: T)
}
